=== FILE: README.md ===
# Nano33BLE voltage monitor: decision rules

This project models the small pure rules inside a React Native app. The app scans for an Arduino
Nano 33 BLE sensor, connects to it, and charts the voltage readings it streams. The screens are
mostly glue around a BLE library and a chart library. The rules below are lifted out as pure
functions over immutable data and proved correct:

- **ChartWindow** (`chart_window.dfy`): the 30-point rolling window behind the voltage chart.
  It starts as 30 zeros. On every render tick the latest reading is pushed. A value equal to the
  newest point is skipped. Otherwise the value is appended and the oldest point is shifted out once
  there would be more than 30. Readings are an abstract type with equality.
- **Readings** (`readings.dfy`): the monitor callback's rule for when the latest reading changes.
  It changes only for a notification that has no error, has a non-empty payload, and whose decoded
  text parses as a number. The base64 decoder and `parseFloat` are parameters.
- **Connection** (`connection.dfy`): when the voltage screen scans, which scanned device it settles
  on, and the connect-and-monitor run. That run checks `isConnected`, makes one connect call with a
  single retry, discovers services and subscribes. It is written as a pure function of the outcomes
  of those library calls.
- **ScanPage** (`scan_page.dfy`): RSSI to signal bars, the sensor filter, the dedup-by-id list
  insertion, the scan listener's effect on the screen state, and the permission decision over the
  user's answers.
- **Ble** (`ble.dfy`) and **Wrappers** (`wrappers.dfy`): shared types (device, library error, scan
  callback, optional values), the sensor's UUIDs and name, and JavaScript's `String.includes`.

The code has no named session states: connection progress is implied by which effect callback
runs, and the model keeps it that way. Facts about the code that the model keeps:

- A scan that finds nothing within 5 seconds only stops scanning. The status stays "기기 찾는 중...".
- The window capacity is fixed at 30.
- The window skips a pushed value equal to its newest point, so the chart only scrolls when the reading changes.
- A failed connect call is retried exactly once.

## Model

| member | source | states |
|---|---|---|
| ChartWindow.Initial | app/DataVisualizationPage.tsx:42 | the window starts with exactly 30 points, all equal to the zero reading |
| ChartWindow.Push | app/DataVisualizationPage.tsx:181-186 | the new value is always the newest point. The window is unchanged exactly when its newest point already equals the value. Otherwise the result is `prev ++ [v]`, or that sequence with only the oldest point removed once `prev` holds 30. A changed window is a suffix of `prev ++ [v]`. A window of at most 30 stays at most 30, and a full window stays exactly 30 |
| ChartWindow.PushIdempotent | app/DataVisualizationPage.tsx:182 | pushing the same value on two consecutive ticks equals pushing it once |
| ChartWindow.ReplayKeepsCapacity | app/DataVisualizationPage.tsx:181-186 | from a full window, any run of ticks leaves exactly 30 points |
| ChartWindow.InitialReplayBounded | app/DataVisualizationPage.tsx:42 | the screen's window, starting from 30 zeros, holds exactly 30 points after any run of ticks, so never more than 30 |
| ChartWindow.ReplayIsNewestChanges | app/DataVisualizationPage.tsx:181-186 | reference description: after any run of ticks, a full window equals the newest 30 elements of the old window followed by every tick value that differed from the value kept before it. So order is kept and eviction is FIFO |
| Ble.Includes | app/DataVisualizationPage.tsx:128 | JavaScript `includes`, as used on an error message: true exactly when the word occurs at some offset of the text, so an empty word is always found |
| Readings.Payload | app/DataVisualizationPage.tsx:133 | the payload taken is the characteristic's own value. It is taken exactly when the characteristic and its value exist and the value is non-empty (the falsy check) |
| Readings.IsCancellation | app/DataVisualizationPage.tsx:128 | an error is a cancellation exactly when its code is 201 or its message contains "cancelled" at some offset |
| Readings.Classify | app/DataVisualizationPage.tsx:126-138 | each notification falls into exactly one class. An error is a cancellation or another failure. Without an error, a missing or empty payload gives no value. Otherwise the decoded text either fails to parse, or parses to a reading that is that parse's value |
| Readings.DecodeBase64 | app/DataVisualizationPage.tsx:24-30 | a payload the decoder rejects becomes the empty string. Otherwise the result is the decoded text |
| Readings.OnNotification | app/DataVisualizationPage.tsx:125-139 | an error (a cancellation with code 201 or "cancelled", or any other error), a missing or empty payload, or text that does not parse leaves the latest reading unchanged. Otherwise the latest reading becomes the parsed value |
| Readings.UndecodableIsDropped | app/DataVisualizationPage.tsx:133-138 | when parsing rejects "" (as `parseFloat` does), a payload the base64 decoder rejects is discarded |
| Readings.MonitorKeepsNewestReading | app/DataVisualizationPage.tsx:125-139 | after any run of notifications, the latest reading is the newest one a notification carried, or the starting value if none did |
| Readings.DroppedNotificationKeepsChart | app/DataVisualizationPage.tsx:172-186 | after a dropped notification, the next render tick leaves the chart exactly as the previous tick left it |
| Connection.ShouldScan | app/DataVisualizationPage.tsx:54 | a scan runs only outside simulation, with a non-empty device id, and with no device handed in. It runs in every such case |
| Connection.Matches | app/DataVisualizationPage.tsx:63-68 | a scan callback reports the wanted device exactly when it carries no error and a device whose id equals the wanted id |
| Connection.FindDevice | app/DataVisualizationPage.tsx:62-73 | a device is found exactly when some error-free callback reports the wanted id. The found device is the first such one and carries that id |
| Connection.ConnectWithRetry | app/DataVisualizationPage.tsx:102-114 | an already connected device gets no connect call. Otherwise there are one or two calls. The policy stops after one call only when that call succeeded, so a first failure is always retried, and the second call happens only after the first failed. A link exists exactly when it already existed or some call made succeeded |
| Connection.ConnectWithRetryIsBoundedRetry | app/DataVisualizationPage.tsx:105-113 | for every sequence of connect outcomes, the calls made are the shortest prefix ending in a success, capped at two. A link exists exactly when that prefix ends in a success |
| Connection.ConnectAndMonitor | app/DataVisualizationPage.tsx:91-148 | simulation or no target does nothing. Every run with a target first shows "연결 시도 중..." and ends at "데이터 수신 중" on success or "연결 실패" otherwise. The statuses follow the fixed order and any failure is shown once, last. "데이터 수신 중" is shown exactly when discovery succeeded after a connection. An `isConnected()` that throws gives exactly ["연결 시도 중...", "연결 실패"] with no connect call. The connect calls are exactly those of the connect step, and none unless `isConnected` answered false. `connected` is set exactly when "서비스 탐색 중..." is shown, that is after a pre-existing or successful connection. It ends true, with a subscription installed, exactly when discovery and subscription also succeed |
| Connection.Session | app/DataVisualizationPage.tsx:53-160 | outside simulation, the run is the connect-and-monitor run on the device handed in, or else on the one the scan found: same calls, same connection and monitoring outcome, and the same statuses preceded by "기기 찾는 중..." when the scan runs. Simulation, or neither a device nor a device id, does nothing. A scan that finds nothing leaves only its status and makes no call. A device handed in or found always leads to a connection attempt. A connection to a scanned device needs a callback matching the id |
| Connection.AlreadyConnectedSkipsConnect | app/DataVisualizationPage.tsx:102-116 | a device already connected gets no connect call. The run then succeeds exactly when discovery and subscription do |
| Connection.TwoFailuresGiveUp | app/DataVisualizationPage.tsx:105-147 | two failed connect calls end with status "연결 실패", never connected, and no third call |
| ScanPage.SignalStrength | components/BLEScanPage.tsx:34-40 | the result is always 1 to 4. A missing reading or a reading of 0 gives 1. Other readings map ≥ -50 to 4, -60..-51 to 3, -70..-61 to 2, and below -70 to 1 |
| ScanPage.SignalStrengthMonotone | components/BLEScanPage.tsx:36-39 | over non-zero readings, a stronger reading never shows fewer bars |
| ScanPage.ZeroReadingShowsOneBar | components/BLEScanPage.tsx:35 | because of the falsy check, 0 dBm shows 1 bar while -1 dBm shows 4 |
| ScanPage.IsTarget | components/BLEScanPage.tsx:112-115 | a device is accepted exactly when its name or its local name is "Nano33BLE", or its advertised service list has the sensor's service UUID at some position |
| ScanPage.Find | components/BLEScanPage.tsx:119 | the lookup yields nothing exactly when no entry has the id. Otherwise it yields the first entry with that id |
| ScanPage.Insert | components/BLEScanPage.tsx:117-123 | a listed id leaves the list unchanged, so the first-seen entry is kept. An unlisted device is appended at the end. Existing entries keep their positions, distinct ids stay distinct, and the device's id is listed afterwards |
| ScanPage.FindAfterInsert | components/BLEScanPage.tsx:117-123 | after an insertion, the entry for any id is the earlier entry if there was one, else the inserted device if the id matches |
| ScanPage.OnScanInput | components/BLEScanPage.tsx:104-132 | an error or the timeout only clears the scanning flag. An accepted device (error-free, the sensor by name, local name or service UUID) is inserted. Any other callback changes nothing |
| ScanPage.RunScanGrows | components/BLEScanPage.tsx:117-123 | over any run of scan inputs, ids stay distinct and no entry is dropped or reordered |
| ScanPage.RunScanFind | components/BLEScanPage.tsx:112-123 | after any run, the list's entry for an id is the one already listed, or else the first accepted device with that id, or none |
| ScanPage.Requested | components/BLEScanPage.tsx:58-76 | nothing is asked off Android. On Android with a known API level of 31 or above, Bluetooth scan, Bluetooth connect and fine location are asked. Below 31, or with the level unknown (counted as -1), only fine location is asked. At 31 or above nothing else is asked. The Bluetooth permissions are never asked below 31 |
| ScanPage.HasPermission | components/BLEScanPage.tsx:57-88 | scanning is allowed exactly when every requested permission was granted. So it is always allowed off Android, and on Android never without fine location. At 31 or above it is allowed exactly when Bluetooth scan, Bluetooth connect and fine location were all granted |
| ScanPage.HasPermissionMonotone | components/BLEScanPage.tsx:77-84 | granting more never withdraws permission to scan |
| ScanPage.HasPermissionReadsRequestedOnly | components/BLEScanPage.tsx:72-84 | the decision depends only on the answers to the permissions requested |
| ScanPage.HandleScan | components/BLEScanPage.tsx:90-98 | without permission the screen state is unchanged and no scan starts. With permission the scanning flag is raised and the list emptied |
| ScanPage.ScanListsFirstAcceptedPerId | components/BLEScanPage.tsx:90-126 | after a permitted rescan and any run of scan inputs, the list has distinct ids and its entry for each id is the first accepted device with that id |

## Left out

- BLE manager calls (scan, stop scan, connect, discover, monitor, subscription removal, destroy) are left out as foreign library calls. Only their outcomes appear, as inputs.
- The 500 ms settle delay, the 1000 ms retry delay, the 5 s scan timeout, the 100 ms render interval and React effect scheduling are left out. Only their order is kept: scan callbacks before the timeout, connect calls in sequence, one push per tick.
- Base64 decoding through `Buffer` and `parseFloat` are foreign, and `parseFloat` works on floating point. They are parameters: `decode` returns `None` where the decoder throws, and `parse` returns `None` for NaN.
- Readings: JavaScript `===` on numbers is modelled as equality of an abstract reading type. NaN never reaches the window, and the simulation is not modelled.
- The simulation generator (sine plus `Math.random`) is left out because it uses floating point and randomness. So is `setCurrentVoltage`, which only copies the latest reading for display.
- Rendering is left out: the JSX of both screens, `SignalIcon`, `toFixed`/`slice` formatting, the chart, the button styles and the start screen.
- Routing and configuration files are left out; they contain no logic.
- Permission dialogs and `Alert` are left out as platform I/O. Only the answers are modelled, as a map from permission name to grant result.
- Logging of scan and monitor errors is left out.
- Re-running the connect effect when its dependencies change is left out. Each run is modelled from a fresh `connected = false`.
- Teardown when leaving the screen is left out: removing the subscription and destroying the manager are library calls and set no status.

=== FILE: ble.dfy ===
/**
 The parts of the BLE library's data that the two screens look at: scanned
 devices, library errors and the (error, device) pairs a scan callback receives.
 */
module Ble {
  import opened Wrappers

  /** Service advertised by the sensor firmware. */
  const TargetServiceUuid: string := "19B10010-E8F2-537E-4F6C-D104768A1214"
  /** Advertised name of the sensor. */
  const TargetName: string := "Nano33BLE"

  /** A scanned device; every field but the id may be absent. */
  datatype Device = Device(
    id: string,
    name: Option<string>,
    localName: Option<string>,
    serviceUuids: Option<seq<string>>,
    rssi: Option<int>)

  /** A library error: numeric code and optional message. */
  datatype BleError = BleError(errorCode: int, message: Option<string>)

  /** One invocation of a scan listener: `(error, device)`, either possibly null. */
  datatype ScanEvent = ScanEvent(error: Option<BleError>, device: Option<Device>)

  ghost predicate OccursAt(s: string, part: string, i: int)
  {
    0 <= i && i + |part| <= |s| && s[i..i + |part|] == part
  }

  /** An occurrence that does not start at offset 0 is an occurrence in `s[1..]`, one place earlier. */
  lemma OccursLater(s: string, part: string)
    requires |s| > 0 && |part| <= |s| && s[..|part|] != part
    ensures (exists i :: OccursAt(s, part, i)) <==> exists i :: OccursAt(s[1..], part, i)
  {
    if exists i :: OccursAt(s[1..], part, i) {
      var i :| OccursAt(s[1..], part, i);
      assert s[i + 1..i + 1 + |part|] == s[1..][i..i + |part|];
      assert OccursAt(s, part, i + 1);
    }
    if exists i :: OccursAt(s, part, i) {
      var i :| OccursAt(s, part, i);
      assert i != 0;
      assert s[1..][i - 1..i - 1 + |part|] == s[i..i + |part|];
      assert OccursAt(s[1..], part, i - 1);
    }
  }

  /** JavaScript's `s.includes(part)`: true exactly when `part` occurs in `s` at some offset. */
  function Includes(s: string, part: string): (b: bool)
    ensures b <==> exists i :: OccursAt(s, part, i)
    decreases |s|
  {
    if |part| > |s| then false
    else if s[..|part|] == part then
      assert OccursAt(s, part, 0);
      true
    else
      OccursLater(s, part);
      Includes(s[1..], part)
  }
}

=== FILE: chart_window.dfy ===
/**
 The rolling window of chart points on the voltage screen. Every render tick
 hands the latest reading to `Push`; the window starts as `Capacity` zeros.
 Values are kept abstract: all the rule needs is equality.
 */
module ChartWindow {

  /** Number of points the chart keeps. */
  const Capacity: nat := 30

  function Last<T>(s: seq<T>): T
    requires |s| > 0
  {
    s[|s| - 1]
  }

  /** `a` is a trailing part of `b`. */
  predicate IsSuffix<T(==)>(a: seq<T>, b: seq<T>)
  {
    |a| <= |b| && b[|b| - |a|..] == a
  }

  /** The window the screen starts with: `Capacity` copies of the zero reading. */
  function Initial<T>(zero: T): (w: seq<T>)
    ensures |w| == Capacity
    ensures forall i :: 0 <= i < |w| ==> w[i] == zero
  {
    seq(Capacity, _ => zero)
  }

  /**
   One tick: a value equal to the newest point is skipped; otherwise it is
   appended and, once the window would hold more than `Capacity` points, the
   oldest one is shifted out.
   */
  function Push<T(==)>(prev: seq<T>, v: T): (next: seq<T>)
    ensures |next| > 0 && Last(next) == v
    ensures next != prev ==> IsSuffix(next, prev + [v])
    ensures next == prev <==> |prev| > 0 && Last(prev) == v
    ensures next != prev ==> next == if |prev| < Capacity then prev + [v] else prev[1..] + [v]
    ensures |prev| <= Capacity ==> |next| <= Capacity
    ensures |prev| == Capacity ==> |next| == Capacity
  {
    if |prev| > 0 && Last(prev) == v then prev
    else
      var grown := prev + [v];
      if |grown| > Capacity then grown[1..] else grown
  }

  /** Pushing the same value on two consecutive ticks is the same as pushing it once. */
  lemma PushIdempotent<T>(w: seq<T>, v: T)
    ensures Push(Push(w, v), v) == Push(w, v)
  {
  }

  /** The window after a run of ticks, oldest value first. */
  function Replay<T(==)>(w: seq<T>, vs: seq<T>): seq<T>
    decreases |vs|
  {
    if vs == [] then w else Replay(Push(w, vs[0]), vs[1..])
  }

  /** A full window stays full, whatever the ticks deliver. */
  lemma {:induction false} ReplayKeepsCapacity<T>(w: seq<T>, vs: seq<T>)
    requires |w| == Capacity
    ensures |Replay(w, vs)| == Capacity
    decreases |vs|
  {
    if vs != [] {
      ReplayKeepsCapacity(Push(w, vs[0]), vs[1..]);
    }
  }

  /** The screen's window never holds more than `Capacity` points. */
  lemma InitialReplayBounded<T>(zero: T, vs: seq<T>)
    ensures |Replay(Initial(zero), vs)| == Capacity
  {
    ReplayKeepsCapacity(Initial(zero), vs);
  }

  /** The values of `vs` that differ from the value kept just before them. */
  function Changes<T(==)>(last: T, vs: seq<T>): seq<T>
    decreases |vs|
  {
    if vs == [] then []
    else if vs[0] == last then Changes(last, vs[1..])
    else [vs[0]] + Changes(vs[0], vs[1..])
  }

  /** The newest `n` elements of `s`. */
  function NewestN<T>(s: seq<T>, n: nat): seq<T>
  {
    if |s| <= n then s else s[|s| - n..]
  }

  lemma NewestNDropFirst<T>(s: seq<T>, n: nat)
    requires |s| > n
    ensures NewestN(s[1..], n) == NewestN(s, n)
  {
  }

  lemma ShiftThenNewest<T>(w: seq<T>, v: T, tail: seq<T>)
    requires |w| == Capacity
    ensures NewestN(w[1..] + [v] + tail, Capacity) == NewestN(w + ([v] + tail), Capacity)
  {
    var s := w + [v] + tail;
    assert s[1..] == w[1..] + [v] + tail;
    assert s == w + ([v] + tail);
    NewestNDropFirst(s, Capacity);
  }

  /**
   Reference description of the window: starting from a full window `w`, the
   window after the ticks `vs` is the newest `Capacity` elements of `w`
   followed by every reading that differed from the one before it.
   */
  lemma {:induction false} ReplayIsNewestChanges<T>(w: seq<T>, vs: seq<T>)
    requires |w| == Capacity
    ensures Replay(w, vs) == NewestN(w + Changes(Last(w), vs), Capacity)
    decreases |vs|
  {
    if vs == [] {
      assert w + [] == w;
    } else {
      var v, rest := vs[0], vs[1..];
      var w' := Push(w, v);
      ReplayIsNewestChanges(w', rest);
      if v != Last(w) {
        assert w' == w[1..] + [v];
        ShiftThenNewest(w, v, Changes(v, rest));
      }
    }
  }
}

=== FILE: connection.dfy ===
/**
 How the voltage screen reaches its device: the scan that looks for a given
 device id, then connect (with one retry), service discovery and subscription.
 Every library call is replaced by its outcome, supplied as input.
 */
module Connection {
  import opened Wrappers
  import opened Ble
  import ChartWindow

  /** Status texts the screen shows while looking for and connecting to the device. */
  const Searching: string := "기기 찾는 중..."
  const Trying: string := "연결 시도 중..."
  const Discovering: string := "서비스 탐색 중..."
  const Receiving: string := "데이터 수신 중"
  const Failure: string := "연결 실패"

  /** The statuses of a run that gets all the way to monitoring, in order. */
  const SuccessTrace: seq<string> := [Trying, Discovering, Receiving]

  /** Connect calls made at most: the first one and one retry. */
  const MaxConnectCalls: nat := 2

  /**
   The scanning effect runs only outside simulation, with a non-empty device id
   to look for, and when no device object was handed to the screen.
   */
  function ShouldScan(isSimulation: bool, deviceId: Option<string>, device: Option<Device>): (run: bool)
    ensures run ==> deviceId.Some? && |deviceId.value| > 0
    ensures isSimulation || device.Some? ==> !run
    ensures !isSimulation && device.None? && deviceId.Some? && deviceId.value != "" ==> run
  {
    !isSimulation && deviceId.Some? && deviceId.value != "" && device.None?
  }

  /** A scan callback that reports the wanted device: no error, device id equal. */
  function Matches(e: ScanEvent, deviceId: string): (m: bool)
    ensures m <==> e.error.None? && exists d :: e.device == Some(d) && d.id == deviceId
  {
    e.error.None? && e.device.Some? && e.device.value.id == deviceId
  }

  /**
   The device the scan settles on: the first matching callback, after which the
   scan is stopped. `events` are the callbacks delivered before the timeout.
   */
  function FindDevice(deviceId: string, events: seq<ScanEvent>): (found: Option<Device>)
    ensures found.Some? <==> exists i :: 0 <= i < |events| && Matches(events[i], deviceId)
    ensures found.Some? ==> found.value.id == deviceId
    ensures found.Some? ==> exists i :: 0 <= i < |events| && Matches(events[i], deviceId)
                                     && events[i].device == found
                                     && forall j :: 0 <= j < i ==> !Matches(events[j], deviceId)
    decreases |events|
  {
    if events == [] then None
    else if Matches(events[0], deviceId) then events[0].device
    else
      var found := FindDevice(deviceId, events[1..]);
      assert forall i :: 1 <= i < |events| ==> events[i] == events[1..][i - 1];
      if found.Some? then
        ghost var k :| 0 <= k < |events[1..]| && Matches(events[1..][k], deviceId)
                      && events[1..][k].device == found
                      && forall j :: 0 <= j < k ==> !Matches(events[1..][j], deviceId);
        assert Matches(events[k + 1], deviceId) && events[k + 1].device == found;
        found
      else found
  }

  /** The platform answers every connect call the policy makes. */
  predicate Answers(alreadyConnected: bool, outcomes: seq<bool>)
  {
    alreadyConnected || (|outcomes| >= 1 && (outcomes[0] || |outcomes| >= 2))
  }

  /** Result of the connect step: how many connect calls were made, and whether a link exists. */
  datatype Attempt = Attempt(calls: nat, linked: bool)

  /**
   Connect unless the device already reports a connection; on a first failure
   wait and call connect exactly once more. `outcomes[i]` is the outcome of the
   i-th connect call.
   */
  function ConnectWithRetry(alreadyConnected: bool, outcomes: seq<bool>): (a: Attempt)
    requires Answers(alreadyConnected, outcomes)
    ensures alreadyConnected ==> a == Attempt(0, true)
    ensures !alreadyConnected ==> 1 <= a.calls <= MaxConnectCalls && a.calls <= |outcomes|
    ensures forall i :: 0 <= i < a.calls - 1 ==> !outcomes[i]
    ensures !alreadyConnected && a.calls < MaxConnectCalls ==> outcomes[a.calls - 1]
    ensures a.linked <==> alreadyConnected || exists i :: 0 <= i < a.calls && outcomes[i]
    ensures a.calls == MaxConnectCalls ==> !outcomes[0]
  {
    if alreadyConnected then Attempt(0, true)
    else if outcomes[0] then Attempt(1, true)
    else Attempt(2, outcomes[1])
  }

  /** Reference retry policy: call until a call succeeds or `budget` calls were made. */
  function CallsUntilSuccess(outcomes: seq<bool>, budget: nat): nat
    decreases budget
  {
    if budget == 0 || outcomes == [] then 0
    else if outcomes[0] then 1
    else 1 + CallsUntilSuccess(outcomes[1..], budget - 1)
  }

  /**
   For every sequence of connect outcomes, the calls made are the shortest
   prefix ending in a success, capped at two, and a link exists exactly when
   that prefix ends in a success.
   */
  lemma ConnectWithRetryIsBoundedRetry(outcomes: seq<bool>)
    requires Answers(false, outcomes)
    ensures ConnectWithRetry(false, outcomes).calls == CallsUntilSuccess(outcomes, MaxConnectCalls)
    ensures ConnectWithRetry(false, outcomes).linked <==> outcomes[CallsUntilSuccess(outcomes, MaxConnectCalls) - 1]
  {
  }

  /** Outcomes of the library calls one connection run makes, in call order. */
  datatype Link = Link(
    isConnected: Option<bool>,   // None: `isConnected()` threw
    connects: seq<bool>,
    discovery: bool,
    subscription: bool)

  predicate Answered(l: Link)
  {
    l.isConnected.None? || Answers(l.isConnected.value, l.connects)
  }

  /**
   What one run leaves behind: connect calls made, the statuses shown in order,
   whether `connected` was ever set, its final value, and whether a
   subscription is installed.
   */
  datatype Report = Report(connectCalls: nat, statuses: seq<string>, everConnected: bool, connected: bool, monitoring: bool)

  /** The effect does nothing at all. */
  const Idle: Report := Report(0, [], false, false, false)

  /** Any exception inside the run lands in one handler: "failed", not connected. */
  function Fail(calls: nat, shown: seq<string>, everConnected: bool): Report
  {
    Report(calls, shown + [Failure], everConnected, false, false)
  }

  /**
   The connect-and-monitor effect for the target device (`device || foundDevice`).
   */
  function ConnectAndMonitor(isSimulation: bool, target: Option<Device>, l: Link): (r: Report)
    requires Answered(l)
    ensures isSimulation || target.None? ==> r == Idle
    ensures r.connectCalls <= MaxConnectCalls
    ensures l.isConnected != Some(false) ==> r.connectCalls == 0
    ensures r.connectCalls == MaxConnectCalls ==> !l.connects[0]
    ensures r.everConnected <==> !isSimulation && target.Some? && l.isConnected.Some?
                                 && ConnectWithRetry(l.isConnected.value, l.connects).linked
    ensures r.connected <==> r.everConnected && l.discovery && l.subscription
    ensures r.monitoring <==> r.connected
    ensures !isSimulation && target.Some? ==> |r.statuses| > 0 && r.statuses[0] == Trying
    ensures !isSimulation && target.Some? ==> ChartWindow.Last(r.statuses) == if r.connected then Receiving else Failure
    ensures !isSimulation && target.Some? && l.isConnected.Some? ==>
              r.connectCalls == ConnectWithRetry(l.isConnected.value, l.connects).calls
    ensures l.isConnected.None? && !isSimulation && target.Some? ==> r.statuses == [Trying, Failure] && !r.everConnected
    ensures r.connected ==> r.statuses == SuccessTrace
    ensures r != Idle ==> r.statuses == SuccessTrace
                          || exists k :: 1 <= k <= |SuccessTrace| && r.statuses == SuccessTrace[..k] + [Failure]
    ensures r.everConnected <==> Discovering in r.statuses
    ensures Receiving in r.statuses <==> r.everConnected && l.discovery
  {
    if isSimulation || target.None? then Idle
    else
      match l.isConnected
      case None =>
        assert SuccessTrace[..1] == [Trying];
        Fail(0, [Trying], false)
      case Some(already) =>
        var a := ConnectWithRetry(already, l.connects);
        if !a.linked then
          assert SuccessTrace[..1] == [Trying];
          Fail(a.calls, [Trying], false)
        else if !l.discovery then
          assert SuccessTrace[..2] == [Trying, Discovering];
          Fail(a.calls, [Trying, Discovering], true)
        else if !l.subscription then
          assert SuccessTrace[..3] == SuccessTrace;
          Fail(a.calls, SuccessTrace, true)
        else Report(a.calls, [Trying, Discovering, Receiving], true, true, true)
  }

  /**
   The two effects together: the scan effect shows its status and looks for the
   device; the device handed to the screen, or else the one the scan found, is
   connected to.
   */
  function Session(isSimulation: bool, deviceId: Option<string>, device: Option<Device>, events: seq<ScanEvent>, l: Link): (r: Report)
    requires Answered(l)
    ensures isSimulation ==> r == Idle
    ensures device.None? && (deviceId.None? || deviceId == Some("")) ==> r == Idle
    ensures ShouldScan(isSimulation, deviceId, device) ==> |r.statuses| > 0 && r.statuses[0] == Searching
    ensures ShouldScan(isSimulation, deviceId, device) && FindDevice(deviceId.value, events).None? ==>
              r == Idle.(statuses := [Searching])
    ensures !isSimulation && (device.Some? || (ShouldScan(isSimulation, deviceId, device) && FindDevice(deviceId.value, events).Some?)) ==>
              Trying in r.statuses
    ensures r.everConnected && device.None? ==> exists i :: 0 <= i < |events| && Matches(events[i], deviceId.value)
    ensures !isSimulation ==>
              var scans := ShouldScan(isSimulation, deviceId, device);
              var target := if device.Some? then device else if scans then FindDevice(deviceId.value, events) else None;
              var run := ConnectAndMonitor(false, target, l);
              && r.connectCalls == run.connectCalls
              && r.everConnected == run.everConnected
              && r.connected == run.connected
              && r.monitoring == run.monitoring
              && r.statuses == (if scans then [Searching] else []) + run.statuses
  {
    var scans := ShouldScan(isSimulation, deviceId, device);
    var found := if scans then FindDevice(deviceId.value, events) else None;
    var target := if device.Some? then device else found;
    var run := ConnectAndMonitor(isSimulation, target, l);
    if scans then run.(statuses := [Searching] + run.statuses) else run
  }

  /** With the device already connected, no connect call is made and the outcome depends only on discovery and subscription. */
  lemma AlreadyConnectedSkipsConnect(target: Device, l: Link)
    requires l.isConnected == Some(true)
    ensures ConnectAndMonitor(false, Some(target), l).connectCalls == 0
    ensures ConnectAndMonitor(false, Some(target), l).connected <==> l.discovery && l.subscription
  {
  }

  /** Two failed connect calls end the run: failure status, never connected, no third call. */
  lemma TwoFailuresGiveUp(target: Device, l: Link)
    requires l.isConnected == Some(false) && |l.connects| >= 2 && !l.connects[0] && !l.connects[1]
    ensures ConnectAndMonitor(false, Some(target), l) == Report(2, [Trying, Failure], false, false, false)
  {
  }
}

=== FILE: readings.dfy ===
/**
 The monitor callback of the voltage screen: which notifications move the
 latest reading. Base64 decoding and number parsing belong to foreign code and
 are parameters: `decode` yields `None` where the decoder throws, `parse` yields
 `None` where `parseFloat` gives NaN.
 */
module Readings {
  import opened Wrappers
  import opened Ble
  import ChartWindow

  /** The characteristic handed to the callback; its value is base64 text. */
  datatype Characteristic = Characteristic(value: Option<string>)

  /** One invocation of the monitor callback: `(error, characteristic)`. */
  datatype Notification = Notification(error: Option<BleError>, characteristic: Option<Characteristic>)

  /** The error code the monitor callback treats as a cancellation. */
  const CancelledCode: int := 201

  /** Errors the callback silently ignores, as opposed to logging them. */
  function IsCancellation(e: BleError): (c: bool)
    ensures c <==> e.errorCode == CancelledCode
                   || (e.message.Some? && exists i :: OccursAt(e.message.value, "cancelled", i))
  {
    e.errorCode == CancelledCode || (e.message.Some? && Includes(e.message.value, "cancelled"))
  }

  /** The payload, when present and non-empty (an empty string is falsy). */
  function Payload(n: Notification): (p: Option<string>)
    ensures p.Some? ==> |p.value| > 0
    ensures p.Some? ==> n.characteristic.Some? && n.characteristic.value.value == p
    ensures p.None? <==> n.characteristic.None? || n.characteristic.value.value.None? || n.characteristic.value.value == Some("")
  {
    match n.characteristic
    case None => None
    case Some(c) =>
      match c.value
      case None => None
      case Some(s) => if s == "" then None else Some(s)
  }

  /** Base64 decoding that turns a decoder exception into the empty string. */
  function DecodeBase64(decode: string -> Option<string>, payload: string): (text: string)
    ensures decode(payload).None? ==> text == ""
    ensures decode(payload).Some? ==> text == decode(payload).value
  {
    decode(payload).GetOr("")
  }

  /**
   What the callback makes of one notification. `Cancelled` and `Failed` differ
   only in that the callback logs the latter; both leave the reading alone.
   */
  datatype Outcome<T> = Cancelled | Failed | NoValue | NotANumber | Reading(v: T)

  /**
   An error decides first (cancellation or not); then a missing or empty
   payload; then whether the decoded text parses.
   */
  function Classify<T>(n: Notification, decode: string -> Option<string>, parse: string -> Option<T>): (o: Outcome<T>)
    ensures o.Cancelled? <==> n.error.Some? && IsCancellation(n.error.value)
    ensures o.Failed? <==> n.error.Some? && !IsCancellation(n.error.value)
    ensures o.NoValue? <==> n.error.None? && Payload(n).None?
    ensures o.NotANumber? <==> n.error.None? && Payload(n).Some? && parse(DecodeBase64(decode, Payload(n).value)).None?
    ensures o.Reading? <==> n.error.None? && Payload(n).Some? && parse(DecodeBase64(decode, Payload(n).value)).Some?
    ensures o.Reading? ==> Some(o.v) == parse(DecodeBase64(decode, Payload(n).value))
  {
    if n.error.Some? then
      if IsCancellation(n.error.value) then Cancelled else Failed
    else if Payload(n).None? then NoValue
    else
      match parse(DecodeBase64(decode, Payload(n).value))
      case None => NotANumber
      case Some(v) => Reading(v)
  }

  /** The latest reading after the callback has seen `n`. */
  function OnNotification<T>(latest: T, n: Notification, decode: string -> Option<string>, parse: string -> Option<T>): (next: T)
    ensures n.error.Some? ==> next == latest
    ensures Payload(n).None? ==> next == latest
    ensures Payload(n).Some? && parse(DecodeBase64(decode, Payload(n).value)).None? ==> next == latest
    ensures n.error.None? && Payload(n).Some? && parse(DecodeBase64(decode, Payload(n).value)).Some? ==>
              next == parse(DecodeBase64(decode, Payload(n).value)).value
  {
    match Classify(n, decode, parse)
    case Reading(v) => v
    case _ => latest
  }

  /** `parseFloat("")` is NaN; every parser standing for it must agree. */
  predicate RejectsEmpty<T>(parse: string -> Option<T>)
  {
    parse("").None?
  }

  /** A payload the base64 decoder rejects is dropped, because it decodes to "". */
  lemma UndecodableIsDropped<T>(latest: T, n: Notification, decode: string -> Option<string>, parse: string -> Option<T>)
    requires RejectsEmpty(parse)
    requires Payload(n).Some? && decode(Payload(n).value).None?
    ensures Classify(n, decode, parse).NotANumber? || n.error.Some?
    ensures OnNotification(latest, n, decode, parse) == latest
  {
  }

  /** The latest reading after a run of notifications. */
  function Monitor<T>(latest: T, ns: seq<Notification>, decode: string -> Option<string>, parse: string -> Option<T>): T
    decreases |ns|
  {
    if ns == [] then latest else Monitor(OnNotification(latest, ns[0], decode, parse), ns[1..], decode, parse)
  }

  /** The newest reading among `ns`, if any notification carried one. */
  function NewestReading<T>(ns: seq<Notification>, decode: string -> Option<string>, parse: string -> Option<T>): Option<T>
    decreases |ns|
  {
    if ns == [] then None
    else
      match Classify(ns[|ns| - 1], decode, parse)
      case Reading(v) => Some(v)
      case _ => NewestReading(ns[..|ns| - 1], decode, parse)
  }

  lemma {:induction false} MonitorSnoc<T>(latest: T, ns: seq<Notification>, n: Notification, decode: string -> Option<string>, parse: string -> Option<T>)
    ensures Monitor(latest, ns + [n], decode, parse) == OnNotification(Monitor(latest, ns, decode, parse), n, decode, parse)
    decreases |ns|
  {
    if ns == [] {
      assert [] + [n] == [n];
      assert [n][1..] == [];
    } else {
      assert (ns + [n])[0] == ns[0];
      assert (ns + [n])[1..] == ns[1..] + [n];
      MonitorSnoc(OnNotification(latest, ns[0], decode, parse), ns[1..], n, decode, parse);
    }
  }

  /**
   The latest reading is the newest one any notification carried, or the
   starting value when none did: errors, empty payloads and unparsable text
   never overwrite it.
   */
  lemma {:induction false} MonitorKeepsNewestReading<T>(latest: T, ns: seq<Notification>, decode: string -> Option<string>, parse: string -> Option<T>)
    ensures Monitor(latest, ns, decode, parse) == NewestReading(ns, decode, parse).GetOr(latest)
    decreases |ns|
  {
    if ns != [] {
      var init := ns[..|ns| - 1];
      assert ns == init + [ns[|ns| - 1]];
      MonitorSnoc(latest, init, ns[|ns| - 1], decode, parse);
      MonitorKeepsNewestReading(latest, init, decode, parse);
    }
  }

  /**
   A render tick pushes the latest reading into the chart; when a notification
   is dropped, the following tick pushes the same value again and leaves the
   chart as the previous tick left it.
   */
  lemma DroppedNotificationKeepsChart<T>(window: seq<T>, latest: T, n: Notification, decode: string -> Option<string>, parse: string -> Option<T>)
    requires !Classify(n, decode, parse).Reading?
    ensures ChartWindow.Push(ChartWindow.Push(window, latest), OnNotification(latest, n, decode, parse))
            == ChartWindow.Push(window, latest)
  {
  }
}

=== FILE: scan_page.dfy ===
/**
 Decision logic of the device list screen: signal bars from RSSI, which
 scanned devices are listed, how the list grows, and whether the granted
 permissions allow a scan.
 */
module ScanPage {
  import opened Wrappers
  import opened Ble

  /**
   Bars shown for an RSSI reading in dBm. A missing reading and a reading of
   exactly 0 (falsy) both show one bar.
   */
  function SignalStrength(rssi: Option<int>): (bars: int)
    ensures 1 <= bars <= 4
    ensures rssi == None || rssi == Some(0) ==> bars == 1
    ensures rssi.Some? && rssi.value != 0 ==>
              && (bars == 4 <==> rssi.value >= -50)
              && (bars == 3 <==> -60 <= rssi.value <= -51)
              && (bars == 2 <==> -70 <= rssi.value <= -61)
              && (bars == 1 <==> rssi.value < -70)
  {
    if rssi.None? || rssi.value == 0 then 1
    else if rssi.value >= -50 then 4
    else if rssi.value >= -60 then 3
    else if rssi.value >= -70 then 2
    else 1
  }

  /** A stronger non-zero reading never shows fewer bars. */
  lemma SignalStrengthMonotone(a: int, b: int)
    requires a != 0 && b != 0 && a <= b
    ensures SignalStrength(Some(a)) <= SignalStrength(Some(b))
  {
  }

  /** The falsy check makes 0 dBm, the strongest conceivable reading, show the fewest bars. */
  lemma ZeroReadingShowsOneBar()
    ensures SignalStrength(Some(0)) == 1 && SignalStrength(Some(-1)) == 4
  {
  }

  /** The device is the sensor: by either name, or by advertising the sensor's service. */
  function IsTarget(d: Device): (t: bool)
    ensures t <==> || d.name == Some(TargetName)
                   || d.localName == Some(TargetName)
                   || exists uuids, i :: d.serviceUuids == Some(uuids) && 0 <= i < |uuids| && uuids[i] == TargetServiceUuid
  {
    d.name == Some(TargetName) || d.localName == Some(TargetName)
    || (d.serviceUuids.Some? && TargetServiceUuid in d.serviceUuids.value)
  }

  /** JavaScript's `list.find(d => d.id === id)`: the first entry with that id. */
  function Find(list: seq<Device>, id: string): (r: Option<Device>)
    ensures r.None? <==> forall i :: 0 <= i < |list| ==> list[i].id != id
    ensures r.Some? ==> exists i :: 0 <= i < |list| && list[i] == r.value && r.value.id == id
                                  && forall j :: 0 <= j < i ==> list[j].id != id
    decreases |list|
  {
    if list == [] then None
    else if list[0].id == id then Some(list[0])
    else
      var r := Find(list[1..], id);
      assert forall i :: 1 <= i < |list| ==> list[i] == list[1..][i - 1];
      if r.Some? then
        ghost var k :| 0 <= k < |list[1..]| && list[1..][k] == r.value && r.value.id == id
                      && forall j :: 0 <= j < k ==> list[1..][j].id != id;
        assert list[k + 1] == r.value;
        r
      else r
  }

  /** No two entries share an id. */
  predicate DistinctIds(list: seq<Device>)
  {
    forall i, j :: 0 <= i < j < |list| ==> list[i].id != list[j].id
  }

  /** The list update for one accepted device: append it unless its id is already listed. */
  function Insert(list: seq<Device>, d: Device): (r: seq<Device>)
    ensures Find(list, d.id).Some? ==> r == list
    ensures Find(list, d.id).None? ==> r == list + [d]
    ensures |list| <= |r| && r[..|list|] == list
    ensures DistinctIds(list) ==> DistinctIds(r)
    ensures Find(r, d.id).Some? && (Find(list, d.id).None? ==> Find(r, d.id) == Some(d))
  {
    if Find(list, d.id).None? then
      var r := list + [d];
      assert r[|list|] == d;
      r
    else list
  }

  /** Looking up an id in a list with one more entry at the end. */
  lemma {:induction false} FindAppend(list: seq<Device>, d: Device, id: string)
    ensures Find(list + [d], id) == if Find(list, id).Some? then Find(list, id)
                                    else if d.id == id then Some(d) else None
    decreases |list|
  {
    if list == [] {
      assert [] + [d] == [d];
      assert [d][1..] == [];
    } else {
      assert (list + [d])[0] == list[0];
      assert (list + [d])[1..] == list[1..] + [d];
      FindAppend(list[1..], d, id);
    }
  }

  /** Looking up any id after an insertion: the earlier entry if there was one, else the new device. */
  lemma FindAfterInsert(list: seq<Device>, d: Device, id: string)
    ensures Find(Insert(list, d), id) == if Find(list, id).Some? then Find(list, id)
                                         else if d.id == id then Some(d) else None
  {
    if Find(list, d.id).None? {
      FindAppend(list, d, id);
    }
  }

  /** The scan screen's state: the spinner flag and the device list. */
  datatype ScanState = ScanState(scanning: bool, devices: seq<Device>)

  /** What reaches the screen while a scan runs. */
  datatype ScanInput = Callback(event: ScanEvent) | TimedOut

  /** One listener call or the 5-second timer firing. */
  function OnScanInput(s: ScanState, input: ScanInput): (s': ScanState)
    ensures input.TimedOut? ==> s' == s.(scanning := false)
    ensures input.Callback? && input.event.error.Some? ==> s' == s.(scanning := false)
    ensures input.Callback? && input.event.error.None? ==>
              s'.scanning == s.scanning
              && (if input.event.device.Some? && IsTarget(input.event.device.value)
                  then s'.devices == Insert(s.devices, input.event.device.value)
                  else s'.devices == s.devices)
  {
    match input
    case TimedOut => s.(scanning := false)
    case Callback(e) =>
      if e.error.Some? then s.(scanning := false)
      else if e.device.Some? && IsTarget(e.device.value) then s.(devices := Insert(s.devices, e.device.value))
      else s
  }

  function RunScan(s: ScanState, inputs: seq<ScanInput>): ScanState
    decreases |inputs|
  {
    if inputs == [] then s else RunScan(OnScanInput(s, inputs[0]), inputs[1..])
  }

  /** The device a listener call would add to the list, if any. */
  function Accepted(input: ScanInput): Option<Device>
  {
    if input.Callback? && input.event.error.None? && input.event.device.Some? && IsTarget(input.event.device.value)
    then input.event.device
    else None
  }

  /** Reference: the first accepted device with the given id among `inputs`. */
  function FirstAccepted(inputs: seq<ScanInput>, id: string): Option<Device>
    decreases |inputs|
  {
    if inputs == [] then None
    else if Accepted(inputs[0]).Some? && Accepted(inputs[0]).value.id == id then Accepted(inputs[0])
    else FirstAccepted(inputs[1..], id)
  }

  /** Over any run of scan inputs the list keeps distinct ids and never reorders or drops an entry. */
  lemma {:induction false} RunScanGrows(s: ScanState, inputs: seq<ScanInput>)
    requires DistinctIds(s.devices)
    ensures DistinctIds(RunScan(s, inputs).devices)
    ensures |s.devices| <= |RunScan(s, inputs).devices|
    ensures RunScan(s, inputs).devices[..|s.devices|] == s.devices
    decreases |inputs|
  {
    if inputs != [] {
      var s1 := OnScanInput(s, inputs[0]);
      RunScanGrows(s1, inputs[1..]);
      var r := RunScan(s1, inputs[1..]).devices;
      assert r[..|s.devices|] == r[..|s1.devices|][..|s.devices|];
    }
  }

  /**
   After any run of scan inputs, the list's entry for an id is the one already
   listed, or else the first accepted device with that id, or nothing.
   */
  lemma {:induction false} RunScanFind(s: ScanState, inputs: seq<ScanInput>, id: string)
    ensures Find(RunScan(s, inputs).devices, id) ==
              if Find(s.devices, id).Some? then Find(s.devices, id) else FirstAccepted(inputs, id)
    decreases |inputs|
  {
    if inputs != [] {
      var s1 := OnScanInput(s, inputs[0]);
      if Accepted(inputs[0]).Some? {
        FindAfterInsert(s.devices, Accepted(inputs[0]).value, id);
      }
      RunScanFind(s1, inputs[1..], id);
    }
  }

  /** Android, iOS, or any other React Native platform. */
  datatype Os = Android | Ios | OtherOs

  /** Answer to one Android permission request. */
  datatype Grant = Granted | Denied | NeverAskAgain

  const BluetoothScan: string := "android.permission.BLUETOOTH_SCAN"
  const BluetoothConnect: string := "android.permission.BLUETOOTH_CONNECT"
  const FineLocation: string := "android.permission.ACCESS_FINE_LOCATION"

  /** Android 12 (API 31) introduced the runtime Bluetooth permissions. */
  const BluetoothPermissionsApi: int := 31

  /** The permissions asked for; an unknown API level counts as -1. */
  function Requested(os: Os, apiLevel: Option<int>): (ps: seq<string>)
    ensures os != Android ==> ps == []
    ensures os == Android ==> FineLocation in ps
    ensures BluetoothScan in ps || BluetoothConnect in ps ==> apiLevel.Some? && apiLevel.value >= BluetoothPermissionsApi
    ensures os == Android && apiLevel.GetOr(-1) >= BluetoothPermissionsApi ==>
              BluetoothScan in ps && BluetoothConnect in ps && FineLocation in ps
    ensures os == Android && apiLevel.GetOr(-1) >= BluetoothPermissionsApi ==>
              forall p :: p in ps ==> p == BluetoothScan || p == BluetoothConnect || p == FineLocation
    ensures os == Android && apiLevel.GetOr(-1) < BluetoothPermissionsApi ==> ps == [FineLocation]
  {
    if os != Android then []
    else if apiLevel.GetOr(-1) < BluetoothPermissionsApi then [FineLocation]
    else [BluetoothScan, BluetoothConnect, FineLocation]
  }

  predicate IsGranted(answers: map<string, Grant>, p: string)
  {
    p in answers && answers[p] == Granted
  }

  /**
   Whether a scan may start, given the user's answers: always off Android; on
   Android before API 31 (or unknown) fine location alone; from API 31 on,
   Bluetooth connect, Bluetooth scan and fine location.
   */
  function HasPermission(os: Os, apiLevel: Option<int>, answers: map<string, Grant>): (ok: bool)
    ensures ok <==> forall p :: p in Requested(os, apiLevel) ==> IsGranted(answers, p)
    ensures os != Android ==> ok
    ensures os == Android && ok ==> IsGranted(answers, FineLocation)
    ensures os == Android && apiLevel.GetOr(-1) >= BluetoothPermissionsApi ==>
              (ok <==> IsGranted(answers, BluetoothScan) && IsGranted(answers, BluetoothConnect) && IsGranted(answers, FineLocation))
  {
    if os == Android then
      if apiLevel.GetOr(-1) < BluetoothPermissionsApi then IsGranted(answers, FineLocation)
      else IsGranted(answers, BluetoothConnect) && IsGranted(answers, BluetoothScan) && IsGranted(answers, FineLocation)
    else true
  }

  /** Granting more never withdraws permission to scan. */
  lemma HasPermissionMonotone(os: Os, apiLevel: Option<int>, a: map<string, Grant>, b: map<string, Grant>)
    requires forall p :: IsGranted(a, p) ==> IsGranted(b, p)
    ensures HasPermission(os, apiLevel, a) ==> HasPermission(os, apiLevel, b)
  {
  }

  /** Only the requested permissions' answers matter. */
  lemma HasPermissionReadsRequestedOnly(os: Os, apiLevel: Option<int>, a: map<string, Grant>, b: map<string, Grant>)
    requires forall p :: p in Requested(os, apiLevel) ==> (IsGranted(a, p) <==> IsGranted(b, p))
    ensures HasPermission(os, apiLevel, a) == HasPermission(os, apiLevel, b)
  {
  }

  /**
   The rescan button: with permission, raise the spinner and empty the list
   before scanning; without, change nothing and start no scan.
   */
  function HandleScan(s: ScanState, os: Os, apiLevel: Option<int>, answers: map<string, Grant>): (s': ScanState)
    ensures !HasPermission(os, apiLevel, answers) ==> s' == s
    ensures HasPermission(os, apiLevel, answers) ==> s'.scanning && s'.devices == []
  {
    if HasPermission(os, apiLevel, answers) then ScanState(true, []) else s
  }

  /**
   A whole scan started by the button: the listed devices are exactly the first
   accepted device per id, each at most once.
   */
  lemma ScanListsFirstAcceptedPerId(s: ScanState, os: Os, apiLevel: Option<int>, answers: map<string, Grant>,
                                    inputs: seq<ScanInput>, id: string)
    requires HasPermission(os, apiLevel, answers)
    ensures DistinctIds(RunScan(HandleScan(s, os, apiLevel, answers), inputs).devices)
    ensures Find(RunScan(HandleScan(s, os, apiLevel, answers), inputs).devices, id) == FirstAccepted(inputs, id)
  {
    RunScanGrows(HandleScan(s, os, apiLevel, answers), inputs);
    RunScanFind(HandleScan(s, os, apiLevel, answers), inputs, id);
  }
}

=== FILE: wrappers.dfy ===
/** Optional values: the model's stand-in for JavaScript's `null` / `undefined`. */
module Wrappers {

  datatype Option<+T> = None | Some(value: T) {

    /** The encapsulated value, or `default` when there is none (JavaScript's `??`). */
    function GetOr(default: T): (r: T)
      ensures Some? ==> r == value
      ensures None? ==> r == default
    {
      match this
      case Some(v) => v
      case None => default
    }
  }
}
